=== FILE: README.md ===
# SmartyFocus focus-accounting engine in Dafny

This project models the bookkeeping core of the two SmartyFocus programs.

The full tracker is `smartyfocus/app.py`. Each webcam tick, it classifies the
user as focused or distracted. It then adds the time since the last tick to a
focused or a distracted counter. Distracted time is also charged to a
per-application ledger, keyed by a normalised window name. Throttled graph
samples are recorded. A 25-minute Pomodoro countdown runs only while the user
is focused and completes a session at 00:00. The session-start handler, the
status line and the report and graph guards are modelled too.

The simple tracker is `smartyfocus/smartyfocus.py`. It has a single target
matched exactly, two counters, an `mm:ss` split and a status line.

Everything is an immutable record with pure step functions. Wall-clock time is
`real`. The detector outputs (face seen, head facing forward) and the active
window title are plain inputs carried in a `Frame`.

Modules:

- `Wrappers`: `Option` and `Result`.
- `Numbers`: Python `int()` on floats, which truncates toward zero.
- `Text`: Python `strip()`, `lower()` and the `in` substring test.
- `AppName`: the window-title normaliser and its ordered keyword table.
- `Focus`: the focus predicate and the status line of the full tracker.
- `Ledger`: the insertion-ordered distraction ledger, a Python `defaultdict(float)`.
- `Report`: the distraction report (stable descending sort) and the graph guard.
- `Tracker`: the per-tick accumulator, the sample recorder and the start/stop handlers.
- `Pomodoro`: the countdown state machine.
- `SimpleTracker`: the simple variant.

Behaviour of the code worth knowing:

- A negative clock delta is not clamped; it subtracts time.
- Starting tracking while already tracking is not refused.
- A graph sample is appended when `int(elapsed) > len(samples) + 1`. It is not de-duplicated by whole second.
- The manual pause is a bare flag toggle. The countdown loop never reads it (`Pomodoro.StepIgnoresPauseFlag`).
- Every distracted delta is charged to exactly one bucket, so the ledger sums to the distracted time up to float rounding. The "(No Active Window)" bucket takes the ticks whose title is empty.

## Model

| member | source | states |
|---|---|---|
| Numbers.Trunc | smartyfocus/app.py:240 | `int()` of elapsed time truncates toward zero: for x >= 0 the result r satisfies r <= x < r + 1, and for negative x it rounds up |
| Text.Lower | smartyfocus/app.py:76 | `lower()` keeps the length, maps each character by the per-character rule, and leaves no ASCII capital |
| Text.KeyShape | smartyfocus/app.py:223 | the comparison key `strip().lower()` has no ASCII capital and neither starts nor ends with whitespace |
| Text.KeyBlankIff | smartyfocus/app.py:76 | the key is empty exactly when the title consists of whitespace only |
| Text.KeyIdempotent | smartyfocus/app.py:223 | taking the key of a key changes nothing |
| Text.StripLeft | smartyfocus/app.py:223 | `lstrip()` keeps a suffix of the title, everything cut before it is whitespace, and what is kept does not start with whitespace |
| Text.StripRight | smartyfocus/app.py:223 | `rstrip()` keeps a prefix of the title, everything cut after it is whitespace, and what is kept does not end with whitespace |
| Text.Strip | smartyfocus/app.py:76 | the stripped title is an infix of the title, reached by removing only whitespace (Python's full `isspace` set), and neither starts nor ends with whitespace |
| Text.ContainsIff | smartyfocus/app.py:78-94 | the substring test used by the keyword table holds exactly when the pattern occurs at some position of the key |
| AppName.FirstFrom | smartyfocus/app.py:78-95 | the category chosen is the first row of the ordered table whose keyword occurs in the key, and no earlier row matches; none is chosen only when no row matches |
| AppName.Classify | smartyfocus/app.py:78-99 | the if-chain on the key returns the empty string only for the empty title, and returns the title itself when the key is empty |
| AppName.ClassifyFollowsTable | smartyfocus/app.py:78-99 | for every key the if-chain returns the name of the first table row with a keyword in the key, or the title when no row matches |
| AppName.Normalize | smartyfocus/app.py:71-99 | the normalised name is empty exactly when the title is empty |
| AppName.NormalizeFollowsTable | smartyfocus/app.py:76-99 | the if-chain of `get_normalized_app_name` equals the table reading: the first matching category's name (chrome, firefox, code, word, excel, powerpoint, file explorer, spotify, terminal/cmd/powershell), else the original title |
| AppName.UnmatchedKeepsTitle | smartyfocus/app.py:98-99 | a title that matches no keyword is returned unchanged, untrimmed |
| AppName.BlankTitleKept | smartyfocus/app.py:76-99 | a whitespace-only title has the empty key, matches nothing, and is returned as it was, so it is not the empty name |
| Focus.InTargets | smartyfocus/app.py:223 | the title matches exactly when some target has the same stripped, lower-cased key |
| Focus.IsFocused | smartyfocus/app.py:223-224 | a tick is focused iff tracking is on, a face is seen, the head faces forward and the title's key equals some target's key |
| Focus.NoTargetsNeverFocused | smartyfocus/app.py:223-224 | with an empty target list no tick is focused |
| Focus.MatchIgnoresCaseAndBlanks | smartyfocus/app.py:223 | two titles with the same key match the same targets |
| Focus.Status | smartyfocus/app.py:286-297 | status priority: not tracking gives Idle; else no face gives "not detected"; else not forward gives "looking away"; else a non-target title gives "Distracted (on '<title>')" |
| Focus.StatusAgreesWithFocus | smartyfocus/app.py:286-297 | the status says "Focusing" iff the tick is focused by the accumulator's predicate, and says "Idle" iff tracking is off |
| Ledger.Add | smartyfocus/app.py:233-236 | charging d to a name raises the ledger sum by d and that bucket by d; an existing bucket keeps its place, a new one is appended; distinct names stay distinct |
| Ledger.AddOthersUnchanged | smartyfocus/app.py:233-236 | charging one bucket leaves every other bucket's value unchanged |
| Report.InsertSorted | smartyfocus/app.py:402 | inserting into a sequence sorted by descending time keeps it sorted |
| Report.SortDesc | smartyfocus/app.py:402 | `sorted(..., key=seconds, reverse=True)` as an insertion sort in ledger order; it keeps the length, and the three lemmas below give permutation, order and stability |
| Report.InsertPermutes | smartyfocus/app.py:402 | inserting an entry adds exactly that entry to the multiset of entries |
| Report.SortDescPermutes | smartyfocus/app.py:402 | the sorted report lists exactly the ledger's entries (a permutation) |
| Report.SortDescSorted | smartyfocus/app.py:402 | the sorted report is non-increasing in seconds |
| Report.SortDescStable | smartyfocus/app.py:402 | the sort is stable: for every time value, entries with that time appear in ledger (first-charged) order |
| Report.DistractionReport | smartyfocus/app.py:388-402 | the report is refused iff the ledger is empty; otherwise it is a stable descending permutation of the ledger |
| Report.Graph | smartyfocus/app.py:356-366 | the graph is refused iff either sample list has fewer than 2 entries; otherwise the four plotted series are exactly the samples' coordinates |
| Tracker.Initial | smartyfocus/app.py:17-42 | at program start tracking is off, `stop_event` is clear, both counters are zero, the ledger and sample lists are empty, and the loop invariants already hold |
| Tracker.Bucket | smartyfocus/app.py:232-236 | the empty title is charged to "(No Active Window)", any other title to its normalised name, and the bucket is never empty |
| Tracker.Accumulate | smartyfocus/app.py:226-237 | the delta `now - last_check` goes to exactly one counter; a focused delta leaves the ledger alone, a distracted one raises the ledger sum and the given bucket by the delta; `last_check` becomes `now` |
| Tracker.Record | smartyfocus/app.py:240-242 | when `int(elapsed) > len + 1` one (elapsed, total) pair is appended to each list, after which `len <= int(elapsed) - 1`; otherwise nothing changes |
| Tracker.ReadFrame | smartyfocus/app.py:219-242 | a successful read adds `now - last_check` to exactly one counter (the distracted one only when the tick is unfocused, in which case the focused counter stays), leaves the ledger alone on a focused tick, sets `last_check` to `now`, and keeps targets, tracking, start time and `stop_event` |
| Tracker.ReadFrameChargesBucket | smartyfocus/app.py:229-236 | an unfocused read raises its own bucket by exactly the delta and leaves every other bucket's value unchanged |
| Tracker.RecordSamples | smartyfocus/app.py:240-242 | recording at the current clock appends at most one sample, to both lists together, and a new sample's count never exceeds the whole seconds elapsed minus one |
| Tracker.ReadFrameSamples | smartyfocus/app.py:240-242 | a read appends at most one sample, to both graph lists together |
| Tracker.Tick | smartyfocus/app.py:192-242 | once `stop_event` is set, or on a failed read, nothing changes; otherwise the tick is one successful read; either way focused + distracted - `last_check` is unchanged and targets, tracking and `stop_event` are kept |
| Tracker.AccumulatePreservesInv | smartyfocus/app.py:226-237 | charging a delta keeps ledger sum = distracted time and distinct ledger names |
| Tracker.RecordPreservesSamplesInv | smartyfocus/app.py:240-242 | a sample appended by the rule `int(elapsed) > len + 1` is taken at least len + 2 whole seconds in, at the same instant in both lists, so the sample invariant is kept |
| Tracker.TickPreservesInv | smartyfocus/app.py:226-242 | each tick keeps ledger sum = distracted time, distinct ledger names, equal-length sample lists with sample k taken at least k + 2 whole seconds in, and "forward" only with a face |
| Tracker.RunConservesTime | smartyfocus/app.py:192-237 | a stopped loop changes nothing; over any run of a loop not stopped, focused + distracted grows by exactly the last successful read's time minus the initial `last_check` |
| Tracker.RunPreservesInv | smartyfocus/app.py:229-242 | the ledger and sample invariants hold after any run that starts from them |
| Tracker.NoTargetsNoFocusedTime | smartyfocus/app.py:223-228 | with no targets the focused counter never changes over any run |
| Tracker.NotTrackingNoFocusedTime | smartyfocus/app.py:224-230 | ticks that run with tracking off never add focused time over any run |
| Tracker.StartTracking | smartyfocus/app.py:307-323 | an empty selection is refused; otherwise `stop_event` is cleared, the targets become the selection, both counters are zero, both sample lists and the ledger are empty, tracking is on, and the invariants hold |
| Tracker.LoopStart | smartyfocus/app.py:189-190 | a new loop thread sets `last_check` and `start_time` to its own clock reading and changes nothing else |
| Tracker.StopTracking | smartyfocus/app.py:338-340 | stopping turns tracking off, sets `stop_event`, and leaves every counter, list and the ledger readable as they were |
| Tracker.StopEndsLoop | smartyfocus/app.py:338-340 | after a stop that lands between two iterations, no later frame changes anything, because the loop test sees `stop_event` |
| Tracker.SessionAccounting | smartyfocus/app.py:307-323 | after a start, a loop start at t0 and any reads, focused + distracted equals the last read's time minus t0, the ledger sums to the distracted time, and the sample lists have equal length |
| Tracker.StopDuringRead | smartyfocus/app.py:192-237 | a stop that lands after the `stop_event` test but before the lock lets that iteration finish with tracking off: its whole delta goes to distracted time, the focused counter is unchanged, the ledger still sums to the distracted time, and then the loop ends |
| Tracker.StopDuringReadCharges | smartyfocus/app.py:229-236 | the in-flight iteration's charge goes to its frame's bucket by exactly the delta and leaves every other bucket unchanged |
| Tracker.FirstSession | smartyfocus/app.py:307-340 | from launch, a start, a loop start at t0, any reads, a stop between iterations and any later frames: the state is the one at the stop, focused + distracted is the tracked span, the ledger sums to the distracted time, and the sample lists have equal length |
| Pomodoro.Reset | smartyfocus/app.py:159-165 | reset gives a stopped, unpaused, valid 25:00 clock and keeps the session count |
| Pomodoro.Start | smartyfocus/app.py:136-141 | starting a running timer is a no-op; a stopped one starts unpaused with its time and count unchanged |
| Pomodoro.TogglePause | smartyfocus/app.py:148-151 | the pause button flips only the paused flag |
| Pomodoro.Step | smartyfocus/app.py:106-134 | a stopped timer does nothing; an unfocused second only sets paused; a focused second at 00:00 adds exactly one session, stops and resets to 25:00 unpaused; any other focused second lowers minutes*60+seconds by exactly 1 and keeps the clock valid |
| Pomodoro.LoopStep | smartyfocus/app.py:108-134 | the countdown loop's focus test, written `tracking and forward and face and match`, takes exactly the step the tracker's `tracking and face and forward and match` predicate calls for; so an unfocused reading or an empty target list leaves the clock unchanged |
| Pomodoro.StepKeepsValid | smartyfocus/app.py:129-134 | every step keeps seconds in 0..59 and minutes non-negative |
| Pomodoro.StepIgnoresPauseFlag | smartyfocus/app.py:106-134 | a running timer takes the same step whatever the pause button left in the flag |
| Pomodoro.UnfocusedFreezes | smartyfocus/app.py:112-116 | over any run of unfocused seconds minutes, seconds and the session count stay put, and a running timer ends paused |
| Pomodoro.RunKeepsValid | smartyfocus/app.py:129-134 | starting from a valid clock such as 25:00, seconds stay in 0..59 and minutes never go negative over any run |
| Pomodoro.StoppedStaysPut | smartyfocus/app.py:106 | a stopped timer is unchanged by any run |
| Pomodoro.CompletesAtMostOnce | smartyfocus/app.py:121-127 | without a new start, any run completes at most one session, and a completed one leaves the timer stopped |
| Pomodoro.FocusedCountdown | smartyfocus/app.py:129-134 | n focused seconds with at least n seconds left lower the time by exactly n and keep the timer running |
| Pomodoro.FullSession | smartyfocus/app.py:121-141 | from a stopped 25:00 timer, start plus 1501 focused seconds completes exactly one session and leaves a stopped, unpaused 25:00 clock |
| Pomodoro.FirstPomodoro | smartyfocus/app.py:35-141 | from the globals at launch (25:00, stopped, no sessions), Start plus 1501 focused seconds completes the first session and leaves a valid, stopped, unpaused 25:00 clock |
| Pomodoro.FiveSecondScenario | smartyfocus/app.py:112-134 | from 00:05, three focused then two unfocused seconds leave 00:02, paused |
| SimpleTracker.Initial | smartyfocus/smartyfocus.py:10-14 | at start there is no target, both counters are zero, and the timer flag and exit flag are off |
| SimpleTracker.IsFocused | smartyfocus/smartyfocus.py:67-72 | a tick is focused iff a face is seen and the title equals the target character for character: no trimming, no case folding |
| SimpleTracker.Tick | smartyfocus/smartyfocus.py:54-98 | nothing happens before a target is chosen or after exit; a failed read ends the loop; a read tick sets `timer_running` to the tick's focus and adds `now - last_check` to exactly the matching counter |
| SimpleTracker.RunConservesTime | smartyfocus/smartyfocus.py:72-83 | over any run, focused + distracted - last_check is constant, so the counters grow by exactly the elapsed clock time |
| SimpleTracker.FirstTickIncludesWait | smartyfocus/smartyfocus.py:51-55 | `last_check` is taken before the wait for a target, so the first tick charges the whole time since the thread started |
| SimpleTracker.ExitIsFinal | smartyfocus/smartyfocus.py:57-60 | once the loop has ended no later tick changes anything |
| SimpleTracker.Select | smartyfocus/smartyfocus.py:148-158 | the first selected title becomes the target; with no selection nothing changes |
| SimpleTracker.MinutesSeconds | smartyfocus/smartyfocus.py:106-107 | `divmod(int(t), 60)` gives minutes*60 + seconds = int(t) with 0 <= seconds < 60, and non-negative minutes for t >= 0 |
| SimpleTracker.Status | smartyfocus/smartyfocus.py:104-124 | running with a target gives "Tracking Focus on: <target>"; a target without running gives "Not Focused"; no target gives "Select an app to begin"; after exit "Webcam Closed" |
| SimpleTracker.ShouldPlot | smartyfocus/smartyfocus.py:134 | the graph is drawn iff focused + distracted > 0 |
| SimpleTracker.StatusFollowsTick | smartyfocus/smartyfocus.py:72-119 | after a read tick the status names the target exactly when a target is set, the loop is live and that tick was focused; after a failed read it is "Webcam Closed" |
| SimpleTracker.PlotIffClockMoved | smartyfocus/smartyfocus.py:128-134 | started at t0 with any selection, the graph is drawn exactly when the last check time has moved past t0 |
| SimpleTracker.Close | smartyfocus/smartyfocus.py:160-165 | `on_close` sets the exit flag and changes nothing else |
| SimpleTracker.CloseFreezes | smartyfocus/smartyfocus.py:160-165 | after closing, no frame changes the state, so the graph drawn is decided by the counters at close time |
| SimpleTracker.NothingToPlotWithoutTarget | smartyfocus/smartyfocus.py:54-55 | if no target is ever chosen the counters stay zero and no graph is drawn |

## Left out

- Webcam capture and MediaPipe face detection (app.py:176-199, smartyfocus.py:16-27, 50-60) are device and library calls. Only their boolean outputs enter the model.
- The head-orientation threshold `abs(x - 0.5) < 0.15` (app.py:212) is floating-point landmark arithmetic. It is an input flag, which the model ANDs with "face seen" as `webcam_loop` does.
- Window enumeration and active-title lookup through `pygetwindow` are operating-system calls. The active title is an input string; "no active window" is the empty string.
- Tk widgets, image resizing, landmark drawing and matplotlib figures are rendering only. The `mm:ss` and `:.2f` string formatting is part of that.
- Threads, the lock, `root.after` and `time.sleep` are scheduling. Each loop iteration is one atomic step. `stop_event` is modelled as a flag tested before each tick. The common race, a stop landing while an iteration reads its frame, is stated by `Tracker.StopDuringRead`. Other races are not modelled. One is a reset landing during the countdown's one-second sleep. Another is a restart while the old loop is still blocked in a frame read: the restart's `stop_event.clear()` (app.py:323) lets the old thread keep looping beside the new one, and both charge the freshly zeroed counters.
- The webcam thread's exit when the camera cannot be opened (app.py:177-180) is left out, because there is no camera in the model.
- SimpleTracker.Tick: the loop's other exits, a closed video window or the `q` key (smartyfocus.py:90-93), are not separate inputs. A `None` frame stands for them, since all three end the loop with `exit_app` set.
- The thread that `pause_pomodoro` respawns on resume (app.py:157) is a race between loops. Only the flag toggle is modelled.
- The message boxes shown on refusals are modelled as `Failure` values or as an unchanged state.
- `bulkJpgtopdf/app.py` is not part of this model. It is a web upload handler whose work is done by image, archive and HTTP libraries.
- Text.Lower: maps only ASCII A-Z. Python's `str.lower` also folds non-ASCII letters.
- Tracker.RunConservesTime: time is an exact `real`, so floating-point rounding of the Python counters is not modelled.
- SimpleTracker.RunConservesTime: time is an exact `real`, so floating-point rounding of the Python counters is not modelled.
- Tracker.SessionAccounting: the ledger sum equals the distracted time exactly only because time is an exact `real`. In Python, `distracted_time` adds the deltas in tick order and the ledger sum adds per-bucket partial sums, so the two can differ by float rounding. The same holds for the ledger-sum clause of `Tracker.Inv` as used by `AccumulatePreservesInv`, `TickPreservesInv`, `RunPreservesInv`, `StopDuringRead` and `FirstSession`.

=== FILE: appname.dfy ===
/** Grouping of window titles into application names for the distraction
    ledger (`get_normalized_app_name` in smartyfocus/app.py). */
module AppName {
  import opened Wrappers
  import Text

  /** One row of the keyword table: any keyword found in the lower-cased,
      stripped title selects `name`. */
  datatype Category = Category(keywords: seq<string>, name: string)

  /** The categories in the order `get_normalized_app_name` tests them; the first row that
      matches wins. */
  const Table: seq<Category> := [
    Category(["chrome"], "Google Chrome"),
    Category(["firefox"], "Mozilla Firefox"),
    Category(["code"], "Visual Studio Code"),
    Category(["word"], "Microsoft Word"),
    Category(["excel"], "Microsoft Excel"),
    Category(["powerpoint"], "Microsoft PowerPoint"),
    Category(["file explorer"], "File Explorer"),
    Category(["spotify"], "Spotify"),
    Category(["terminal", "cmd", "powershell"], "Terminal")
  ]

  /** Some keyword of `keywords` occurs in `key`. */
  predicate AnyContained(key: string, keywords: seq<string>)
  {
    |keywords| > 0 && (Text.Contains(key, keywords[0]) || AnyContained(key, keywords[1..]))
  }

  /** Index of the first table row at or after `from` whose keywords occur in `key`. */
  function FirstFrom(key: string, from: nat): (r: Option<nat>)
    ensures r.Some? ==> from <= r.value < |Table| && AnyContained(key, Table[r.value].keywords)
    ensures r.Some? ==> forall j :: from <= j < r.value ==> !AnyContained(key, Table[j].keywords)
    ensures r.None? ==> forall j :: from <= j < |Table| ==> !AnyContained(key, Table[j].keywords)
    decreases |Table| - from
  {
    if from >= |Table| then None
    else if AnyContained(key, Table[from].keywords) then Some(from)
    else FirstFrom(key, from + 1)
  }

  /** The first matching category of the table, if any. */
  function FirstCategory(key: string): Option<nat>
  {
    FirstFrom(key, 0)
  }

  /** Table-driven reading of the normaliser: the first matching category's
      name, or the title itself. */
  function NormalizeByTable(title: string): string
  {
    match FirstCategory(Text.Key(title))
    case Some(i) => Table[i].name
    case None => title
  }

  /** The if-chain of `get_normalized_app_name` on an already computed
      key; a key that matches nothing gives back `title`. */
  function Classify(title: string, key: string): (r: string)
    ensures r == "" ==> title == ""
    ensures key == "" ==> r == title
  {
    if Text.Contains(key, "chrome") then "Google Chrome"
    else if Text.Contains(key, "firefox") then "Mozilla Firefox"
    else if Text.Contains(key, "code") then "Visual Studio Code"
    else if Text.Contains(key, "word") then "Microsoft Word"
    else if Text.Contains(key, "excel") then "Microsoft Excel"
    else if Text.Contains(key, "powerpoint") then "Microsoft PowerPoint"
    else if Text.Contains(key, "file explorer") then "File Explorer"
    else if Text.Contains(key, "spotify") then "Spotify"
    else if Text.Contains(key, "terminal") || Text.Contains(key, "cmd") || Text.Contains(key, "powershell") then "Terminal"
    else title
  }

  /** `get_normalized_app_name`: classifies the stripped, lower-cased title.
      A title that matches no keyword comes back exactly as given, untrimmed. */
  function Normalize(title: string): (r: string)
    ensures r == "" <==> title == ""
  {
    var key := Text.Key(title);
    assert title == "" ==> key == "" by {
      assert |key| <= |title|;
    }
    Classify(title, key)
  }

  /** The if-chain and the ordered table pick the same name for every key. */
  lemma ClassifyFollowsTable(title: string, key: string)
    ensures Classify(title, key) == match FirstCategory(key) case Some(i) => Table[i].name case None => title
  {
    assert AnyContained(key, Table[0].keywords) == Text.Contains(key, "chrome") by {
      assert Table[0].keywords == ["chrome"];
    }
    assert AnyContained(key, Table[1].keywords) == Text.Contains(key, "firefox") by {
      assert Table[1].keywords == ["firefox"];
    }
    assert AnyContained(key, Table[2].keywords) == Text.Contains(key, "code") by {
      assert Table[2].keywords == ["code"];
    }
    assert AnyContained(key, Table[3].keywords) == Text.Contains(key, "word") by {
      assert Table[3].keywords == ["word"];
    }
    assert AnyContained(key, Table[4].keywords) == Text.Contains(key, "excel") by {
      assert Table[4].keywords == ["excel"];
    }
    assert AnyContained(key, Table[5].keywords) == Text.Contains(key, "powerpoint") by {
      assert Table[5].keywords == ["powerpoint"];
    }
    assert AnyContained(key, Table[6].keywords) == Text.Contains(key, "file explorer") by {
      assert Table[6].keywords == ["file explorer"];
    }
    assert AnyContained(key, Table[7].keywords) == Text.Contains(key, "spotify") by {
      assert Table[7].keywords == ["spotify"];
    }
    assert AnyContained(key, Table[8].keywords)
        == (Text.Contains(key, "terminal") || Text.Contains(key, "cmd") || Text.Contains(key, "powershell")) by {
      assert Table[8].keywords == ["terminal", "cmd", "powershell"];
      assert Table[8].keywords[1..] == ["cmd", "powershell"];
      assert Table[8].keywords[1..][1..] == ["powershell"];
      assert ["powershell"][1..] == [];
      assert !AnyContained(key, []);
      assert AnyContained(key, ["powershell"]) == Text.Contains(key, "powershell");
      assert AnyContained(key, ["cmd", "powershell"])
          == (Text.Contains(key, "cmd") || AnyContained(key, ["powershell"]));
    }
    assert FirstFrom(key, 8) == if AnyContained(key, Table[8].keywords) then Some(8) else FirstFrom(key, 9);
    assert FirstFrom(key, 7) == if AnyContained(key, Table[7].keywords) then Some(7) else FirstFrom(key, 8);
    assert FirstFrom(key, 6) == if AnyContained(key, Table[6].keywords) then Some(6) else FirstFrom(key, 7);
    assert FirstFrom(key, 5) == if AnyContained(key, Table[5].keywords) then Some(5) else FirstFrom(key, 6);
    assert FirstFrom(key, 4) == if AnyContained(key, Table[4].keywords) then Some(4) else FirstFrom(key, 5);
    assert FirstFrom(key, 3) == if AnyContained(key, Table[3].keywords) then Some(3) else FirstFrom(key, 4);
    assert FirstFrom(key, 2) == if AnyContained(key, Table[2].keywords) then Some(2) else FirstFrom(key, 3);
    assert FirstFrom(key, 1) == if AnyContained(key, Table[1].keywords) then Some(1) else FirstFrom(key, 2);
    assert FirstFrom(key, 0) == if AnyContained(key, Table[0].keywords) then Some(0) else FirstFrom(key, 1);
  }

  /** The if-chain of `get_normalized_app_name` is the table-driven normaliser. */
  lemma NormalizeFollowsTable(title: string)
    ensures Normalize(title) == NormalizeByTable(title)
  {
    ClassifyFollowsTable(title, Text.Key(title));
  }

  /** A whitespace-only title matches nothing and so is returned unstripped:
      it is a non-empty ledger name, not the empty one. */
  lemma BlankTitleKept(title: string)
    requires title != [] && forall i :: 0 <= i < |title| ==> Text.IsSpace(title[i])
    ensures Text.Key(title) == ""
    ensures Normalize(title) == title
  {
  }

  /** No keyword of any category occurs in the key. */
  predicate NoKeyword(key: string)
  {
    && !Text.Contains(key, "chrome") && !Text.Contains(key, "firefox")
    && !Text.Contains(key, "code") && !Text.Contains(key, "word")
    && !Text.Contains(key, "excel") && !Text.Contains(key, "powerpoint")
    && !Text.Contains(key, "file explorer") && !Text.Contains(key, "spotify")
    && !Text.Contains(key, "terminal") && !Text.Contains(key, "cmd")
    && !Text.Contains(key, "powershell")
  }

  /** A title whose key mentions no keyword is its own application name. */
  lemma UnmatchedKeepsTitle(title: string, key: string)
    requires key == Text.Key(title) && NoKeyword(key)
    ensures Normalize(title) == title
  {
  }
}

=== FILE: focus.dfy ===
/** The focus predicate and the status line of the full tracker
    (smartyfocus/app.py, `webcam_loop`, `pomodoro_timer_loop`, `update_gui`). */
module Focus {
  import Text

  /** Target `i` has the same key as the title. */
  ghost predicate MatchesAt(title: string, targets: seq<string>, i: int)
  {
    0 <= i < |targets| && Text.Key(targets[i]) == Text.Key(title)
  }

  /** `title.strip().lower() in [t.strip().lower() for t in targets]`. */
  function InTargets(title: string, targets: seq<string>): (r: bool)
    ensures r <==> exists i :: MatchesAt(title, targets, i)
  {
    if |targets| == 0 then false
    else if Text.Key(targets[0]) == Text.Key(title) then
      assert MatchesAt(title, targets, 0);
      true
    else
      var rest := targets[1..];
      var r := InTargets(title, rest);
      assert r ==> exists i :: MatchesAt(title, targets, i) by {
        if r {
          var j :| MatchesAt(title, rest, j);
          assert targets[j + 1] == rest[j];
          assert MatchesAt(title, targets, j + 1);
        }
      }
      assert (exists i :: MatchesAt(title, targets, i)) ==> r by {
        if exists i :: MatchesAt(title, targets, i) {
          var i :| MatchesAt(title, targets, i);
          assert i != 0;
          assert rest[i - 1] == targets[i];
          assert MatchesAt(title, rest, i - 1);
        }
      }
      r
  }

  /** A tick is focused when tracking is on, a face is seen, the head faces
      forward and the active window is one of the targets. */
  function IsFocused(tracking: bool, face: bool, forward: bool, title: string, targets: seq<string>): (r: bool)
    ensures r <==> tracking && face && forward && exists i :: MatchesAt(title, targets, i)
  {
    tracking && face && forward && InTargets(title, targets)
  }

  /** With no targets selected no tick is ever focused. */
  lemma NoTargetsNeverFocused(tracking: bool, face: bool, forward: bool, title: string)
    ensures !IsFocused(tracking, face, forward, title, [])
  {
  }

  /** Matching ignores surrounding whitespace and ASCII case on both sides. */
  lemma MatchIgnoresCaseAndBlanks(title: string, other: string, targets: seq<string>)
    requires Text.Key(title) == Text.Key(other)
    ensures InTargets(title, targets) == InTargets(other, targets)
  {
    assert forall i :: MatchesAt(title, targets, i) <==> MatchesAt(other, targets, i);
  }

  const IdleMessage := "Status: Idle"
  const AbsentMessage := "Status: User is not detected. The PC is idle."
  const LookingAwayMessage := "Status: Distracted (looking away)"
  const FocusingMessage := "Status: Focusing on selected applications"

  /** The message shown when the user looks at a window that is not a target. */
  function OnWindowMessage(title: string): string
  {
    "Status: Distracted (on '" + title + "')"
  }

  /** The status line of `update_gui`: the checks are made in a fixed order
      and the first failing one names the reason. */
  function Status(tracking: bool, face: bool, forward: bool, title: string, targets: seq<string>): (r: string)
    ensures !tracking ==> r == IdleMessage
    ensures tracking && !face ==> r == AbsentMessage
    ensures tracking && face && !forward ==> r == LookingAwayMessage
    ensures tracking && face && forward && !InTargets(title, targets) ==> r == OnWindowMessage(title)
  {
    if tracking then
      if !face then AbsentMessage
      else if !forward then LookingAwayMessage
      else if !InTargets(title, targets) then OnWindowMessage(title)
      else FocusingMessage
    else IdleMessage
  }

  /** The status line claims focus exactly on the ticks the accumulator
      counts as focused, and says "Idle" exactly when tracking is off. */
  lemma StatusAgreesWithFocus(tracking: bool, face: bool, forward: bool, title: string, targets: seq<string>)
    ensures Status(tracking, face, forward, title, targets) == FocusingMessage
            <==> IsFocused(tracking, face, forward, title, targets)
    ensures Status(tracking, face, forward, title, targets) == IdleMessage <==> !tracking
  {
    var r := Status(tracking, face, forward, title, targets);
    var w := OnWindowMessage(title);
    assert w[8] == 'D';
    assert FocusingMessage[8] == 'F' && IdleMessage[8] == 'I';
    assert AbsentMessage[8] == 'U' && LookingAwayMessage[8] == 'D';
  }
}

=== FILE: ledger.dfy ===
/** The per-application distraction ledger `distraction_per_app`
    (smartyfocus/app.py): a `defaultdict(float)` whose iteration order is the
    order in which names were first charged. */
module Ledger {
  import opened Wrappers

  datatype Entry = Entry(name: string, seconds: real)

  /** Entries in first-insertion order. */
  type Ledger = seq<Entry>

  /** No name appears twice, as in a dictionary. */
  predicate Distinct(l: Ledger)
  {
    forall i, j :: 0 <= i < j < |l| ==> l[i].name != l[j].name
  }

  /** Position of `name` in the ledger, if it has been charged. */
  function Find(l: Ledger, name: string): (r: Option<nat>)
    ensures r.Some? ==> r.value < |l| && l[r.value].name == name
    ensures r.Some? ==> forall j :: 0 <= j < r.value ==> l[j].name != name
    ensures r.None? ==> forall j :: 0 <= j < |l| ==> l[j].name != name
  {
    if |l| == 0 then None
    else if l[0].name == name then Some(0)
    else
      match Find(l[1..], name)
      case Some(k) => Some(k + 1)
      case None => None
  }

  /** `distraction_per_app[name]` read without inserting: zero when absent. */
  function Value(l: Ledger, name: string): real
  {
    match Find(l, name)
    case Some(i) => l[i].seconds
    case None => 0.0
  }

  /** Total seconds over all buckets, `sum(distraction_per_app.values())`. */
  function Sum(l: Ledger): real
  {
    if |l| == 0 then 0.0 else Sum(l[..|l| - 1]) + l[|l| - 1].seconds
  }

  /** Overwriting one entry changes the total by the difference. */
  lemma {:induction false} SumUpdate(l: Ledger, i: nat, e: Entry)
    requires i < |l|
    ensures Sum(l[i := e]) == Sum(l) - l[i].seconds + e.seconds
  {
    var n := |l|;
    var u := l[i := e];
    assert u[..n - 1] == if i == n - 1 then l[..n - 1] else l[..n - 1][i := e];
    if i < n - 1 {
      SumUpdate(l[..n - 1], i, e);
    }
  }

  /** `distraction_per_app[name] += d`: charges `d` to `name`, creating the
      bucket (at the end, starting from 0.0) when it does not yet exist. */
  function Add(l: Ledger, name: string, d: real): (r: Ledger)
    ensures Sum(r) == Sum(l) + d
    ensures Value(r, name) == Value(l, name) + d
    ensures Find(l, name).Some? ==> |r| == |l| && forall i :: 0 <= i < |l| ==> r[i].name == l[i].name
    ensures Find(l, name).None? ==> r == l + [Entry(name, d)]
    ensures Distinct(l) ==> Distinct(r)
  {
    match Find(l, name)
    case Some(i) =>
      var r := l[i := Entry(name, l[i].seconds + d)];
      SumUpdate(l, i, Entry(name, l[i].seconds + d));
      FindSameNames(l, r, name);
      r
    case None =>
      var r := l + [Entry(name, 0.0 + d)];
      assert r[..|r| - 1] == l;
      assert Find(r, name) == Some(|l|) by { FindAppended(l, Entry(name, 0.0 + d), name); }
      r
  }

  /** Two ledgers listing the same names in the same order locate a name at
      the same position. */
  lemma {:induction false} FindSameNames(l: Ledger, m: Ledger, name: string)
    requires |l| == |m| && forall i :: 0 <= i < |l| ==> l[i].name == m[i].name
    ensures Find(l, name) == Find(m, name)
  {
    if |l| > 0 && l[0].name != name {
      FindSameNames(l[1..], m[1..], name);
    }
  }

  /** Appending an entry does not move the names already present, and the
      new name is found at the end when it was absent. */
  lemma {:induction false} FindAppended(l: Ledger, e: Entry, name: string)
    ensures Find(l, name).Some? ==> Find(l + [e], name) == Find(l, name)
    ensures Find(l, name).None? && e.name == name ==> Find(l + [e], name) == Some(|l|)
    ensures Find(l, name).None? && e.name != name ==> Find(l + [e], name).None?
  {
    if |l| > 0 && l[0].name != name {
      assert (l + [e])[1..] == l[1..] + [e];
      FindAppended(l[1..], e, name);
    }
  }

  /** Charging one bucket leaves every other bucket as it was. */
  lemma AddOthersUnchanged(l: Ledger, name: string, d: real, other: string)
    requires other != name
    ensures Value(Add(l, name, d), other) == Value(l, other)
  {
    var r := Add(l, name, d);
    match Find(l, name)
    case Some(i) =>
      FindSameNames(l, r, other);
    case None =>
      FindAppended(l, Entry(name, d), other);
  }
}

=== FILE: numbers.dfy ===
/** Python's numeric conversions used by both trackers. */
module Numbers {

  /** `int(x)` on a float: truncation toward zero. */
  function Trunc(x: real): (r: int)
    ensures 0.0 <= x ==> 0 <= r && r as real <= x < r as real + 1.0
    ensures x < 0.0 ==> r <= 0 && r as real - 1.0 < x <= r as real
  {
    if x >= 0.0 then x.Floor else -((-x).Floor)
  }
}

=== FILE: pomodoro.dfy ===
/** The Pomodoro countdown of the full tracker (smartyfocus/app.py,
    `pomodoro_timer_loop`, `start_pomodoro`, `pause_pomodoro`,
    `reset_pomodoro`): a minutes:seconds clock that only runs while the user
    is focused and that completes a session on reaching 00:00. */
module Pomodoro {
  import Focus

  datatype Timer = Timer(minutes: int, seconds: int, running: bool, paused: bool, sessions: nat)

  const SessionMinutes := 25

  /** The globals at program start: 25:00, stopped, no sessions yet. */
  const Initial := Timer(SessionMinutes, 0, false, false, 0)

  /** The time left, in seconds. */
  function Left(t: Timer): int
  {
    t.minutes * 60 + t.seconds
  }

  /** A displayable clock: seconds in 0..59 and minutes never negative. */
  predicate Valid(t: Timer)
  {
    0 <= t.seconds <= 59 && 0 <= t.minutes
  }

  /** `reset_pomodoro`: stops and restores 25:00; the session count stays. */
  function Reset(t: Timer): (r: Timer)
    ensures Valid(r) && Left(r) == SessionMinutes * 60
    ensures !r.running && !r.paused && r.sessions == t.sessions
  {
    t.(running := false, paused := false, minutes := SessionMinutes, seconds := 0)
  }

  /** `start_pomodoro`: starts a stopped timer; a running one is left as it is. */
  function Start(t: Timer): (r: Timer)
    ensures t.running ==> r == t
    ensures !t.running ==> r.running && !r.paused
    ensures Left(r) == Left(t) && r.sessions == t.sessions
  {
    if !t.running then t.(running := true, paused := false) else t
  }

  /** `pause_pomodoro`, without the thread it respawns: flips the flag. */
  function TogglePause(t: Timer): (r: Timer)
    ensures r.paused == !t.paused
    ensures r.(paused := t.paused) == t
  {
    t.(paused := !t.paused)
  }

  /** One second of `pomodoro_timer_loop`. A stopped timer has no loop. An
      unfocused second pauses the clock without touching it; a focused second
      at 00:00 completes the session and resets; any other focused second
      counts one second down. */
  function Step(t: Timer, focused: bool): (r: Timer)
    ensures !t.running ==> r == t
    ensures t.running && !focused ==> r == t.(paused := true)
    ensures t.running && focused && Left(t) == 0 && Valid(t) ==>
      r.sessions == t.sessions + 1 && r == Reset(t).(sessions := t.sessions + 1)
    ensures t.running && focused && Left(t) != 0 && Valid(t) ==>
      Valid(r) && Left(r) == Left(t) - 1 && r.running && !r.paused && r.sessions == t.sessions
  {
    if !t.running then t
    else if !focused then t.(paused := true)
    else
      var t := t.(paused := false);
      if t.minutes == 0 && t.seconds == 0 then
        Reset(t.(running := false, sessions := t.sessions + 1))
      else if t.seconds > 0 then t.(seconds := t.seconds - 1)
      else t.(seconds := 59, minutes := t.minutes - 1)
  }

  /** Every step keeps the clock displayable. */
  lemma StepKeepsValid(t: Timer, focused: bool)
    requires Valid(t)
    ensures Valid(Step(t, focused))
  {
  }

  /** The loop never reads the pause flag: whatever `pause_pomodoro` left
      in it, a running timer takes the same step. */
  lemma StepIgnoresPauseFlag(t: Timer, focused: bool)
    requires t.running
    ensures Step(TogglePause(t), focused) == Step(t, focused)
  {
  }

  /** The timer driven by one focus reading per second. */
  function Run(t: Timer, focus: seq<bool>): Timer
    decreases |focus|
  {
    if |focus| == 0 then t else Run(Step(t, focus[0]), focus[1..])
  }

  /** The clock never moves while the user is not focused. */
  lemma {:induction false} UnfocusedFreezes(t: Timer, focus: seq<bool>)
    requires forall i :: 0 <= i < |focus| ==> !focus[i]
    ensures Run(t, focus).minutes == t.minutes && Run(t, focus).seconds == t.seconds
    ensures Run(t, focus).sessions == t.sessions
    ensures t.running && |focus| > 0 ==> Run(t, focus).paused
    decreases |focus|
  {
    if |focus| > 0 {
      UnfocusedFreezes(Step(t, focus[0]), focus[1..]);
    }
  }

  /** A valid timer stays valid over any run. */
  lemma {:induction false} RunKeepsValid(t: Timer, focus: seq<bool>)
    requires Valid(t)
    ensures Valid(Run(t, focus))
    decreases |focus|
  {
    if |focus| > 0 {
      StepKeepsValid(t, focus[0]);
      RunKeepsValid(Step(t, focus[0]), focus[1..]);
    }
  }

  /** Sessions complete at most once per start: completion stops the timer
      and a stopped timer stays as it is until started again. */
  lemma {:induction false} CompletesAtMostOnce(t: Timer, focus: seq<bool>)
    requires Valid(t)
    ensures Run(t, focus).sessions <= t.sessions + 1
    ensures Run(t, focus).sessions == t.sessions + 1 ==> !Run(t, focus).running
    decreases |focus|
  {
    if |focus| > 0 {
      var next := Step(t, focus[0]);
      if !next.running {
        StoppedStaysPut(next, focus[1..]);
      } else {
        CompletesAtMostOnce(next, focus[1..]);
      }
    }
  }

  lemma {:induction false} StoppedStaysPut(t: Timer, focus: seq<bool>)
    requires !t.running
    ensures Run(t, focus) == t
    decreases |focus|
  {
    if |focus| > 0 {
      StoppedStaysPut(Step(t, focus[0]), focus[1..]);
    }
  }

  /** `n` focused seconds in a row. */
  function AllFocused(n: nat): seq<bool>
  {
    seq(n, _ => true)
  }

  /** While time is left, each focused second counts one down. */
  lemma {:induction false} FocusedCountdown(t: Timer, n: nat)
    requires Valid(t) && t.running && n <= Left(t)
    ensures Valid(Run(t, AllFocused(n))) && Run(t, AllFocused(n)).running
    ensures Left(Run(t, AllFocused(n))) == Left(t) - n
    ensures Run(t, AllFocused(n)).sessions == t.sessions
    decreases n
  {
    if n > 0 {
      assert AllFocused(n)[1..] == AllFocused(n - 1);
      FocusedCountdown(Step(t, true), n - 1);
    }
  }

  /** From a freshly started 25:00 timer, 1500 focused seconds bring it to
      00:00 and the next focused second completes exactly one session and
      resets the clock to 25:00. */
  lemma FullSession(t: Timer)
    requires Valid(t) && !t.running && Left(t) == SessionMinutes * 60
    ensures var done := Run(Start(t), AllFocused(SessionMinutes * 60 + 1));
            done.sessions == t.sessions + 1 && !done.running && !done.paused && Left(done) == SessionMinutes * 60
  {
    var n := SessionMinutes * 60;
    var started := Start(t);
    FocusedCountdown(started, n);
    var atZero := Run(started, AllFocused(n));
    RunAppend(started, AllFocused(n), [true]);
    assert AllFocused(n) + [true] == AllFocused(n + 1);
    assert Run(atZero, [true]) == Step(atZero, true);
  }

  /** From program start, pressing Start and staying focused for a whole
      session plus the second at 00:00 completes the first session and
      leaves a valid, stopped 25:00 clock. */
  lemma FirstPomodoro()
    ensures var done := Run(Start(Initial), AllFocused(SessionMinutes * 60 + 1));
            && done.sessions == 1 && !done.running && !done.paused
            && Valid(done) && Left(done) == SessionMinutes * 60
  {
    FullSession(Initial);
    RunKeepsValid(Start(Initial), AllFocused(SessionMinutes * 60 + 1));
  }

  lemma {:induction false} RunAppend(t: Timer, a: seq<bool>, b: seq<bool>)
    ensures Run(t, a + b) == Run(Run(t, a), b)
    decreases |a|
  {
    if |a| > 0 {
      assert (a + b)[1..] == a[1..] + b;
      RunAppend(Step(t, a[0]), a[1..], b);
    } else {
      assert a + b == b;
    }
  }

  /** One second of `pomodoro_timer_loop`: it re-evaluates the focus test
      itself from the shared flags and a fresh window title, writing the
      operands in another order than `webcam_loop` does. The step it takes
      is the one the tracker's predicate calls for. */
  function LoopStep(t: Timer, tracking: bool, face: bool, forward: bool, title: string, targets: seq<string>): (r: Timer)
    ensures r == Step(t, Focus.IsFocused(tracking, face, forward, title, targets))
    ensures !Focus.IsFocused(tracking, face, forward, title, targets) ==> r.minutes == t.minutes && r.seconds == t.seconds
    ensures targets == [] ==> r.minutes == t.minutes && r.seconds == t.seconds && r.sessions == t.sessions
  {
    Step(t, tracking && forward && face && Focus.InTargets(title, targets))
  }

  /** From 00:05, three focused seconds and two distracted ones leave
      00:02 on the clock with the timer marked paused. */
  lemma FiveSecondScenario()
    ensures var t := Run(Timer(0, 5, true, false, 0), [true, true, true, false, false]);
            t.minutes == 0 && t.seconds == 2 && t.paused && t.running
  {
    var t0 := Timer(0, 5, true, false, 0);
    var fs := [true, true, true, false, false];
    assert fs[1..] == [true, true, false, false];
    assert fs[1..][1..] == [true, false, false];
    assert fs[1..][1..][1..] == [false, false];
    assert fs[1..][1..][1..][1..] == [false];
    assert fs[1..][1..][1..][1..][1..] == [];
  }
}

=== FILE: report.dfy ===
/** The guards and ordering of the two read-only views of a finished
    session: `show_distraction_report` and `show_graph` (smartyfocus/app.py). */
module Report {
  import opened Wrappers
  import opened Ledger

  /** Non-increasing in seconds: the most distracting application first. */
  predicate SortedDesc(s: seq<Entry>)
  {
    forall i, j :: 0 <= i < j < |s| ==> s[i].seconds >= s[j].seconds
  }

  /** The entries of `s` whose time is exactly `v`, in their order in `s`.
      A sort is stable when it keeps this sub-sequence for every `v`. */
  function Ties(s: seq<Entry>, v: real): seq<Entry>
  {
    if |s| == 0 then []
    else (if s[0].seconds == v then [s[0]] else []) + Ties(s[1..], v)
  }

  lemma {:induction false} TiesAppend(a: seq<Entry>, b: seq<Entry>, v: real)
    ensures Ties(a + b, v) == Ties(a, v) + Ties(b, v)
  {
    if |a| > 0 {
      assert (a + b)[1..] == a[1..] + b;
      TiesAppend(a[1..], b, v);
    } else {
      assert a + b == b;
    }
  }

  lemma {:induction false} NoTiesBelow(s: seq<Entry>, v: real)
    requires forall i :: 0 <= i < |s| ==> s[i].seconds < v
    ensures Ties(s, v) == []
  {
    if |s| > 0 {
      NoTiesBelow(s[1..], v);
    }
  }

  /** Places `x` after every entry whose time is at least its own. */
  function Insert(s: seq<Entry>, x: Entry): (r: seq<Entry>)
    ensures |r| == |s| + 1
  {
    if |s| == 0 then [x]
    else if s[0].seconds >= x.seconds then [s[0]] + Insert(s[1..], x)
    else [x] + s
  }

  /** Insertion adds `x` and loses nothing. */
  lemma {:induction false} InsertPermutes(s: seq<Entry>, x: Entry)
    ensures multiset(Insert(s, x)) == multiset(s) + multiset{x}
  {
    if |s| > 0 && s[0].seconds >= x.seconds {
      InsertPermutes(s[1..], x);
      assert s == [s[0]] + s[1..];
      assert Insert(s, x) == [s[0]] + Insert(s[1..], x);
    }
  }
  /** Insertion adds no entry above a bound that `s` and `x` respect. */
  lemma {:induction false} InsertBounded(s: seq<Entry>, x: Entry, b: real)
    requires forall i :: 0 <= i < |s| ==> s[i].seconds <= b
    requires x.seconds <= b
    ensures forall i :: 0 <= i < |Insert(s, x)| ==> Insert(s, x)[i].seconds <= b
  {
    if |s| > 0 && s[0].seconds >= x.seconds {
      InsertBounded(s[1..], x, b);
      var rest := Insert(s[1..], x);
      assert Insert(s, x) == [s[0]] + rest;
    }
  }

  /** Insertion keeps a sorted sequence sorted. */
  lemma {:induction false} InsertSorted(s: seq<Entry>, x: Entry)
    requires SortedDesc(s)
    ensures SortedDesc(Insert(s, x))
  {
    if |s| > 0 && s[0].seconds >= x.seconds {
      var rest := Insert(s[1..], x);
      InsertSorted(s[1..], x);
      InsertBounded(s[1..], x, s[0].seconds);
      var r := [s[0]] + rest;
      assert Insert(s, x) == r;
      forall i, j | 0 <= i < j < |r| ensures r[i].seconds >= r[j].seconds {
        assert r[j] == rest[j - 1];
        if i > 0 {
          assert r[i] == rest[i - 1];
        }
      }
    }
  }

  /** Inserting `x` into a sorted sequence appends it to its tie group. */
  lemma {:induction false} InsertTies(s: seq<Entry>, x: Entry, v: real)
    requires SortedDesc(s)
    ensures Ties(Insert(s, x), v) == Ties(s, v) + (if x.seconds == v then [x] else [])
  {
    if |s| == 0 {
    } else if s[0].seconds >= x.seconds {
      var rest := Insert(s[1..], x);
      var head := if s[0].seconds == v then [s[0]] else [];
      var tail := if x.seconds == v then [x] else [];
      assert Insert(s, x) == [s[0]] + rest;
      assert ([s[0]] + rest)[1..] == rest;
      assert Ties(Insert(s, x), v) == head + Ties(rest, v);
      InsertTies(s[1..], x, v);
      assert Ties(rest, v) == Ties(s[1..], v) + tail;
      assert Ties(s, v) == head + Ties(s[1..], v);
      assert head + (Ties(s[1..], v) + tail) == (head + Ties(s[1..], v)) + tail;
    } else {
      assert Insert(s, x) == [x] + s;
      assert ([x] + s)[1..] == s;
      if x.seconds == v {
        forall i | 0 <= i < |s| ensures s[i].seconds < v {
          if i > 0 {
            assert s[0].seconds >= s[i].seconds;
          }
        }
        NoTiesBelow(s, v);
      }
    }
  }

  /** `sorted(..., key=seconds, reverse=True)`: insertion sort, taking the
      entries in ledger order so that equal times keep that order. */
  function SortDesc(s: seq<Entry>): (r: seq<Entry>)
    ensures |r| == |s|
  {
    if |s| == 0 then [] else Insert(SortDesc(s[..|s| - 1]), s[|s| - 1])
  }

  /** Appending one entry to both sides of a permutation keeps it one. */
  lemma SnocPermutes(r: seq<Entry>, sortedInit: seq<Entry>, s: seq<Entry>)
    requires |s| > 0
    requires multiset(r) == multiset(sortedInit) + multiset{s[|s| - 1]}
    requires multiset(sortedInit) == multiset(s[..|s| - 1])
    ensures multiset(r) == multiset(s)
  {
    assert s == s[..|s| - 1] + [s[|s| - 1]];
  }

  /** The sorted report lists exactly the ledger's entries. */
  lemma {:induction false} SortDescPermutes(s: seq<Entry>)
    ensures multiset(SortDesc(s)) == multiset(s)
  {
    if |s| > 0 {
      var init := s[..|s| - 1];
      var last := s[|s| - 1];
      var sortedInit := SortDesc(init);
      SortDescPermutes(init);
      InsertPermutes(sortedInit, last);
      SnocPermutes(Insert(sortedInit, last), sortedInit, s);
    }
  }

  /** The sorted report is non-increasing in seconds. */
  lemma {:induction false} SortDescSorted(s: seq<Entry>)
    ensures SortedDesc(SortDesc(s))
  {
    if |s| > 0 {
      SortDescSorted(s[..|s| - 1]);
      InsertSorted(SortDesc(s[..|s| - 1]), s[|s| - 1]);
    }
  }

  /** The sort is stable: entries with equal times appear in ledger order. */
  lemma {:induction false} SortDescStable(s: seq<Entry>, v: real)
    ensures Ties(SortDesc(s), v) == Ties(s, v)
  {
    if |s| > 0 {
      var init := s[..|s| - 1];
      var last := s[|s| - 1];
      var sortedInit := SortDesc(init);
      calc {
        Ties(SortDesc(s), v);
        Ties(Insert(sortedInit, last), v);
        { SortDescSorted(init); InsertTies(sortedInit, last, v); }
        Ties(sortedInit, v) + (if last.seconds == v then [last] else []);
        { SortDescStable(init, v); }
        Ties(init, v) + (if last.seconds == v then [last] else []);
        { assert [last][1..] == []; }
        Ties(init, v) + Ties([last], v);
        { TiesAppend(init, [last], v); }
        Ties(init + [last], v);
        { assert s == init + [last]; }
        Ties(s, v);
      }
    }
  }

  datatype ReportError = NoDistractionData
  datatype GraphError = NotEnoughData

  /** `show_distraction_report`: refuses an empty ledger, otherwise lists
      every bucket, most distracting first, ties in first-charged order. */
  function DistractionReport(l: Ledger): (r: Result<seq<Entry>, ReportError>)
    ensures r.Failure? <==> |l| == 0
    ensures r.Success? ==> SortedDesc(r.value) && multiset(r.value) == multiset(l)
    ensures r.Success? ==> forall v :: Ties(r.value, v) == Ties(l, v)
  {
    if |l| == 0 then Failure(NoDistractionData)
    else
      var sorted := SortDesc(l);
      SortDescPermutes(l);
      SortDescSorted(l);
      assert forall v :: Ties(sorted, v) == Ties(l, v) by {
        forall v ensures Ties(sorted, v) == Ties(l, v) {
          SortDescStable(l, v);
        }
      }
      Success(sorted)
  }

  /** The four series `show_graph` plots: elapsed times and cumulative totals. */
  datatype Series = Series(focusX: seq<real>, focusY: seq<real>, distractionX: seq<real>, distractionY: seq<real>)

  /** `show_graph`: needs at least two samples in each list, then unpacks
      every (elapsed, total) pair into its two coordinates. */
  function Graph(focusData: seq<(real, real)>, distractionData: seq<(real, real)>): (r: Result<Series, GraphError>)
    ensures r.Failure? <==> |focusData| < 2 || |distractionData| < 2
    ensures r.Success? ==> |r.value.focusX| == |r.value.focusY| == |focusData|
    ensures r.Success? ==> |r.value.distractionX| == |r.value.distractionY| == |distractionData|
    ensures r.Success? ==> forall i :: 0 <= i < |focusData| ==> (r.value.focusX[i], r.value.focusY[i]) == focusData[i]
    ensures r.Success? ==> forall i :: 0 <= i < |distractionData| ==> (r.value.distractionX[i], r.value.distractionY[i]) == distractionData[i]
  {
    if |focusData| < 2 || |distractionData| < 2 then Failure(NotEnoughData)
    else Success(Series(
      seq(|focusData|, i requires 0 <= i < |focusData| => focusData[i].0),
      seq(|focusData|, i requires 0 <= i < |focusData| => focusData[i].1),
      seq(|distractionData|, i requires 0 <= i < |distractionData| => distractionData[i].0),
      seq(|distractionData|, i requires 0 <= i < |distractionData| => distractionData[i].1)))
  }
}

=== FILE: simple.dfy ===
/** The simpler, single-target tracker (smartyfocus/smartyfocus.py): a
    case-sensitive exact title match, two counters and a status line. */
module SimpleTracker {
  import opened Wrappers
  import opened Numbers

  /** What one iteration of its `webcam_loop` observes. */
  datatype Frame = Frame(face: bool, title: string, now: real)

  /** The module-level globals. `lastCheck` is read once when the loop's
      thread starts, before it waits for a target to be chosen. */
  datatype State = State(target: string, focused: real, distracted: real, timerRunning: bool, lastCheck: real, exitApp: bool)

  /** The globals at program start, with the loop's thread started at `now`. */
  function Initial(now: real): (r: State)
    ensures r.target == "" && r.focused == 0.0 && r.distracted == 0.0 && !r.timerRunning && !r.exitApp
  {
    State("", 0.0, 0.0, false, now, false)
  }

  /** Focused means a face is seen and the active title is the target,
      compared exactly: no trimming, no case folding. */
  function IsFocused(face: bool, title: string, target: string): (r: bool)
    ensures r <==> face && |title| == |target| && forall i :: 0 <= i < |title| ==> title[i] == target[i]
  {
    face && title == target
  }

  /** One iteration of the loop. Nothing happens before a target is chosen
      or after the loop has ended; a failed frame read ends the loop. */
  function Tick(s: State, frame: Option<Frame>): (r: State)
    ensures s.target == "" || s.exitApp ==> r == s
    ensures s.target != "" && !s.exitApp && frame.None? ==> r == s.(exitApp := true)
    ensures s.target != "" && !s.exitApp && frame.Some? ==>
      && r.timerRunning == IsFocused(frame.value.face, frame.value.title, s.target)
      && r.lastCheck == frame.value.now
      && r.focused + r.distracted == s.focused + s.distracted + (frame.value.now - s.lastCheck)
      && (r.timerRunning ==> r.distracted == s.distracted)
      && (!r.timerRunning ==> r.focused == s.focused)
    ensures r.target == s.target
  {
    if s.target == "" || s.exitApp then s
    else
      match frame
      case None => s.(exitApp := true)
      case Some(f) =>
        var delta := f.now - s.lastCheck;
        if IsFocused(f.face, f.title, s.target) then
          s.(timerRunning := true, focused := s.focused + delta, lastCheck := f.now)
        else
          s.(timerRunning := false, distracted := s.distracted + delta, lastCheck := f.now)
  }

  function Run(s: State, frames: seq<Option<Frame>>): State
    decreases |frames|
  {
    if |frames| == 0 then s else Run(Tick(s, frames[0]), frames[1..])
  }

  /** Focused plus distracted minus the last check time never changes: every
      tick moves the clock and one counter by the same amount. */
  lemma {:induction false} RunConservesTime(s: State, frames: seq<Option<Frame>>)
    ensures var r := Run(s, frames);
            r.focused + r.distracted - r.lastCheck == s.focused + s.distracted - s.lastCheck
    decreases |frames|
  {
    if |frames| > 0 {
      RunConservesTime(Tick(s, frames[0]), frames[1..]);
    }
  }

  /** The first tick after a target is chosen charges the whole time since
      the thread started, including the time spent choosing. */
  lemma FirstTickIncludesWait(t0: real, target: string, f: Frame)
    requires target != ""
    ensures var r := Tick(Select(Initial(t0), [target]), Some(f));
            r.focused + r.distracted == f.now - t0
  {
  }

  /** `start_tracking_button`: the first selected title becomes the target;
      with no selection nothing changes (only a message is shown). */
  function Select(s: State, selection: seq<string>): (r: State)
    ensures |selection| == 0 ==> r == s
    ensures |selection| > 0 ==> r == s.(target := selection[0])
  {
    if |selection| > 0 then s.(target := selection[0]) else s
  }

  /** `divmod(int(t), 60)`: Python floors the quotient, so the remainder is
      a valid seconds field even for a negative total. */
  function MinutesSeconds(t: real): (r: (int, int))
    ensures r.0 * 60 + r.1 == Trunc(t)
    ensures 0 <= r.1 < 60
    ensures 0.0 <= t ==> 0 <= r.0
  {
    var n := Trunc(t);
    (n / 60, n % 60)
  }

  /** The status line of `update_gui`. */
  function Status(s: State): (r: string)
    ensures s.exitApp ==> r == "Webcam Closed"
    ensures !s.exitApp && s.target == "" ==> r == "Select an app to begin"
    ensures !s.exitApp && s.target != "" && s.timerRunning ==> r == "Tracking Focus on: " + s.target
    ensures !s.exitApp && s.target != "" && !s.timerRunning ==> r == "Not Focused"
  {
    if !s.exitApp then
      if s.timerRunning && s.target != "" then "Tracking Focus on: " + s.target
      else if s.target != "" then "Not Focused"
      else "Select an app to begin"
    else "Webcam Closed"
  }

  /** `plot_graph` draws only when some time was accumulated. */
  function ShouldPlot(s: State): (r: bool)
    ensures r <==> s.focused + s.distracted > 0.0
  {
    s.focused + s.distracted > 0.0
  }

  /** The status line after a tick that read a frame names the target
      exactly when that tick was focused; after a failed read it reports the
      webcam closed. */
  lemma StatusFollowsTick(s: State, f: Frame)
    ensures Status(Tick(s, Some(f))) == "Tracking Focus on: " + s.target
            <==> s.target != "" && !s.exitApp && IsFocused(f.face, f.title, s.target)
    ensures s.target != "" ==> Status(Tick(s, None)) == "Webcam Closed"
  {
    var r := Tick(s, Some(f));
    var tracking := "Tracking Focus on: " + s.target;
    assert |tracking| == 19 + |s.target|;
    if s.target == "" || s.exitApp {
      assert |Status(r)| != |tracking|;
    } else if !IsFocused(f.face, f.title, s.target) {
      assert Status(r) == "Not Focused";
    }
  }

  /** Started at `t0` with any selection, the graph is drawn exactly when
      the loop's clock has moved past `t0`: the counters hold precisely the
      time since the thread started. */
  lemma PlotIffClockMoved(t0: real, selection: seq<string>, frames: seq<Option<Frame>>)
    ensures var r := Run(Select(Initial(t0), selection), frames);
            ShouldPlot(r) <==> r.lastCheck > t0
  {
    RunConservesTime(Select(Initial(t0), selection), frames);
  }

  /** `on_close`: sets the exit flag, whatever the loop is doing. */
  function Close(s: State): (r: State)
    ensures r.exitApp
    ensures r.(exitApp := s.exitApp) == s
  {
    s.(exitApp := true)
  }

  /** Closing the window freezes the counters, so the graph `on_close`
      draws is the one for the time counted until then. */
  lemma CloseFreezes(s: State, frames: seq<Option<Frame>>)
    ensures Run(Close(s), frames) == Close(s)
    ensures ShouldPlot(Run(Close(s), frames)) == ShouldPlot(s)
  {
    ExitIsFinal(Close(s), frames);
  }

  /** Once a frame read fails the loop is over: later ticks change nothing. */
  lemma {:induction false} ExitIsFinal(s: State, frames: seq<Option<Frame>>)
    requires s.exitApp
    ensures Run(s, frames) == s
    decreases |frames|
  {
    if |frames| > 0 {
      ExitIsFinal(Tick(s, frames[0]), frames[1..]);
    }
  }

  /** Until a target is chosen the loop only waits, so closing the window
      then shows no graph. */
  lemma {:induction false} NothingToPlotWithoutTarget(s: State, frames: seq<Option<Frame>>)
    requires s.target == "" && s.focused == 0.0 && s.distracted == 0.0
    ensures !ShouldPlot(Run(s, frames))
    decreases |frames|
  {
    if |frames| > 0 {
      NothingToPlotWithoutTarget(Tick(s, frames[0]), frames[1..]);
    }
  }
}

=== FILE: text.dfy ===
/** The small part of Python's `str` API that the focus tracker relies on:
    `strip()`, `lower()` and the substring test `pat in s`. */
module Text {

  /** Python's `str.isspace` for a single character: ASCII blanks and
      controls 9..13, the separators 0x1C..0x1F, and the Unicode spaces. */
  predicate IsSpace(c: char)
  {
    || c == ' '
    || ('\t' <= c <= '\r')
    || ('\U{1C}' <= c <= '\U{1F}')
    || c == '\U{85}'
    || c == '\U{A0}'
    || c == '\U{1680}'
    || ('\U{2000}' <= c <= '\U{200A}')
    || c == '\U{2028}'
    || c == '\U{2029}'
    || c == '\U{202F}'
    || c == '\U{205F}'
    || c == '\U{3000}'
  }

  /** `s.lstrip()`: drops the leading whitespace and nothing else. */
  function StripLeft(s: string): (r: string)
    ensures CutLeft(s, r)
    ensures r == [] || !IsSpace(r[0])
  {
    if |s| > 0 && IsSpace(s[0]) then StripLeft(s[1..]) else s
  }

  /** `s.rstrip()`: drops the trailing whitespace and nothing else. */
  function StripRight(s: string): (r: string)
    ensures CutRight(s, r)
    ensures r == [] || !IsSpace(r[|r| - 1])
  {
    if |s| > 0 && IsSpace(s[|s| - 1]) then StripRight(s[..|s| - 1]) else s
  }

  /** `r` is what remains of `s` after whitespace is cut from its start. */
  ghost predicate CutLeft(s: string, r: string)
  {
    && |r| <= |s|
    && (forall k :: 0 <= k < |r| ==> r[k] == s[|s| - |r| + k])
    && (forall i :: 0 <= i < |s| - |r| ==> IsSpace(s[i]))
  }

  /** `r` is what remains of `s` after whitespace is cut from its end. */
  ghost predicate CutRight(s: string, r: string)
  {
    && |r| <= |s|
    && (forall k :: 0 <= k < |r| ==> r[k] == s[k])
    && (forall i :: |r| <= i < |s| ==> IsSpace(s[i]))
  }

  /** `t` neither starts nor ends with whitespace. */
  predicate Trimmed(t: string)
  {
    t == [] || (!IsSpace(t[0]) && !IsSpace(t[|t| - 1]))
  }

  /** `s.strip()`: the longest infix of `s` that neither starts nor ends
      with whitespace, reached by removing only whitespace. */
  function Strip(s: string): (r: string)
    ensures |r| <= |s|
    ensures Trimmed(r)
    ensures exists lo :: StrippedAt(s, r, lo)
  {
    StripBothEnds(s);
    StripRight(StripLeft(s))
  }

  /** Stripping the left end and then the right end leaves an infix of `s`
      with only whitespace cut away on either side. */
  lemma StripBothEnds(s: string)
    ensures StrippedAt(s, StripRight(StripLeft(s)), |s| - |StripLeft(s)|)
  {
    CutBothEnds(s, StripLeft(s), StripRight(StripLeft(s)));
  }

  /** Cutting a whitespace prefix off `s`, giving `left`, and then a
      whitespace suffix off `left`, giving `r`, leaves `r` stripped out of
      `s`. */
  lemma CutBothEnds(s: string, left: string, r: string)
    requires CutLeft(s, left)
    requires CutRight(left, r)
    ensures StrippedAt(s, r, |s| - |left|)
  {
    var lo := |s| - |left|;
    forall i | lo + |r| <= i < |s|
      ensures IsSpace(s[i])
    {
      assert s[i] == left[i - lo];
    }
  }

  /** `r` is the infix of `s` starting at `lo`, and everything of `s`
      outside it is whitespace. */
  ghost predicate StrippedAt(s: string, r: string, lo: int)
  {
    && 0 <= lo <= lo + |r| <= |s|
    && (forall k :: 0 <= k < |r| ==> r[k] == s[lo + k])
    && (forall i :: 0 <= i < lo ==> IsSpace(s[i]))
    && (forall i :: lo + |r| <= i < |s| ==> IsSpace(s[i]))
  }

  /** `c.lower()` for ASCII letters; every other character is kept. */
  function LowerChar(c: char): char
  {
    if 'A' <= c <= 'Z' then (c as int + 32) as char else c
  }

  /** `t` holds no ASCII capital letter. */
  predicate NoCapitals(t: string)
  {
    forall i :: 0 <= i < |t| ==> !('A' <= t[i] <= 'Z')
  }

  /** `s.lower()`, character by character. */
  function Lower(s: string): (r: string)
    ensures |r| == |s|
    ensures forall i :: 0 <= i < |s| ==> r[i] == LowerChar(s[i])
    ensures NoCapitals(r)
  {
    if |s| == 0 then [] else [LowerChar(s[0])] + Lower(s[1..])
  }

  /** The comparison key the tracker uses for window titles:
      `title.strip().lower()`. */
  function Key(s: string): (r: string)
  {
    Lower(Strip(s))
  }

  /** The key has no ASCII capital and neither starts nor ends with
      whitespace. */
  lemma KeyShape(s: string)
    ensures NoCapitals(Key(s))
    ensures Trimmed(Key(s))
  {
    LowerKeepsTrimmed(Strip(s));
  }

  /** Lower-casing keeps a string trimmed. */
  lemma LowerKeepsTrimmed(t: string)
    requires Trimmed(t)
    ensures Trimmed(Lower(t))
  {
    if t != [] {
      LowerKeepsSpace(t[0]);
      LowerKeepsSpace(t[|t| - 1]);
    }
  }

  /** The key is empty exactly when the title is all whitespace. */
  lemma KeyBlankIff(s: string)
    ensures Key(s) == [] <==> forall i :: 0 <= i < |s| ==> IsSpace(s[i])
  {
    var stripped := Strip(s);
    var lo :| StrippedAt(s, stripped, lo);
    if stripped != [] {
      assert stripped[0] == s[lo];
    }
  }

  /** Lower-casing never creates or removes whitespace. */
  lemma LowerKeepsSpace(c: char)
    ensures IsSpace(LowerChar(c)) == IsSpace(c)
  {
  }

  /** Lower-casing a string without ASCII capitals changes nothing. */
  lemma LowerFixesLowercase(s: string)
    requires NoCapitals(s)
    ensures Lower(s) == s
  {
    assert forall i :: 0 <= i < |s| ==> Lower(s)[i] == s[i];
  }

  /** Taking the key twice changes nothing, so a target list may hold keys
      or titles alike. */
  lemma KeyIdempotent(s: string)
    ensures Key(Key(s)) == Key(s)
  {
    KeyShape(s);
    KeyOfPlain(Key(s));
  }

  /** A string without ASCII capitals or edge whitespace is its own key. */
  lemma KeyOfPlain(k: string)
    requires NoCapitals(k)
    requires Trimmed(k)
    ensures Key(k) == k
  {
    StripUntouched(k);
    LowerFixesLowercase(k);
  }

  /** Python's substring test `pat in s`; the empty pattern occurs everywhere. */
  function Contains(s: string, pat: string): bool
    decreases |s|
  {
    if |pat| > |s| then false
    else if s[..|pat|] == pat then true
    else Contains(s[1..], pat)
  }

  /** `pat` occurs in `s` starting at position `i`. */
  ghost predicate OccursAt(s: string, pat: string, i: int)
  {
    0 <= i && i + |pat| <= |s| && s[i..i + |pat|] == pat
  }

  /** `Contains` agrees with the positional definition of an occurrence. */
  lemma {:induction false} ContainsIff(s: string, pat: string)
    ensures Contains(s, pat) <==> exists i :: OccursAt(s, pat, i)
    decreases |s|
  {
    if |pat| > |s| {
    } else if s[..|pat|] == pat {
      assert OccursAt(s, pat, 0);
    } else {
      ContainsIff(s[1..], pat);
      if exists i :: OccursAt(s, pat, i) {
        var i :| OccursAt(s, pat, i);
        assert i != 0;
        assert s[1..][i - 1..i - 1 + |pat|] == s[i..i + |pat|];
        assert OccursAt(s[1..], pat, i - 1);
      }
      if Contains(s[1..], pat) {
        var j :| OccursAt(s[1..], pat, j);
        assert s[1..][j..j + |pat|] == s[j + 1..j + 1 + |pat|];
        assert OccursAt(s, pat, j + 1);
      }
    }
  }

  /** A string that neither starts nor ends with whitespace is its own strip. */
  lemma StripUntouched(s: string)
    requires Trimmed(s)
    ensures Strip(s) == s
  {
    assert StripLeft(s) == s;
  }
}

=== FILE: tracker.dfy ===
/** The focus-accounting engine of the full tracker (smartyfocus/app.py):
    the per-tick accumulation of focused and distracted time in
    `webcam_loop`, the distraction ledger, the throttled graph samples, and
    the session start and stop handlers. */
module Tracker {
  import opened Wrappers
  import opened Numbers
  import Focus
  import AppName
  import Ledger

  /** What one iteration of the sampling loop observes: the detector's two
      outputs, the active window title and the clock. `forward` is the raw
      head-orientation test, which the loop only consults when a face is seen. */
  datatype Frame = Frame(face: bool, forward: bool, title: string, now: real)

  /** The module-level globals the loop and the handlers share. Graph
      samples are `(elapsed, cumulative seconds)` pairs; `stopped` is
      `stop_event`, the flag the loop tests before every iteration. */
  datatype State = State(
    targets: seq<string>,
    tracking: bool,
    face: bool,
    forward: bool,
    focused: real,
    distracted: real,
    ledger: Ledger.Ledger,
    focusData: seq<(real, real)>,
    distractionData: seq<(real, real)>,
    startTime: real,
    lastCheck: real,
    stopped: bool)

  /** The globals at program start; `now` stands for the `time.time()` read
      when the module loads. */
  function Initial(now: real): (r: State)
    ensures !r.tracking && !r.stopped && r.focused == 0.0 && r.distracted == 0.0
    ensures r.ledger == [] && r.focusData == [] && r.distractionData == []
    ensures Inv(r)
  {
    State([], false, false, false, 0.0, 0.0, [], [], [], now, now, false)
  }

  /** Bucket name used for titles that normalise to nothing. */
  const NoWindow := "(No Active Window)"

  /** A normalised name that is empty is replaced by the sentinel bucket. */
  function OrNoWindow(name: string): string
  {
    if name != "" then name else NoWindow
  }

  /** The ledger bucket a distracted tick is charged to: the empty title
      goes to the sentinel, every other title to its normalised name. */
  function Bucket(title: string): (r: string)
    ensures title == "" ==> r == NoWindow
    ensures title != "" ==> r == AppName.Normalize(title)
    ensures r != ""
  {
    OrNoWindow(AppName.Normalize(title))
  }

  /** The classification the loop makes of a frame, given the state it reads. */
  predicate FrameFocused(s: State, f: Frame)
  {
    Focus.IsFocused(s.tracking, f.face, f.face && f.forward, f.title, s.targets)
  }

  /** Charges the time since the last check to exactly one counter, and a
      distracted delta also to the given ledger bucket; then advances
      `lastCheck`. The delta is not clamped: a clock that steps back
      subtracts time. */
  function Accumulate(s: State, focused: bool, bucket: string, now: real): (r: State)
    ensures r.focused + r.distracted == s.focused + s.distracted + (now - s.lastCheck)
    ensures r.lastCheck == now
    ensures focused ==> r.focused == s.focused + (now - s.lastCheck) && r.distracted == s.distracted && r.ledger == s.ledger
    ensures !focused ==> r.focused == s.focused && r.distracted == s.distracted + (now - s.lastCheck)
    ensures !focused ==> Ledger.Sum(r.ledger) == Ledger.Sum(s.ledger) + (now - s.lastCheck)
    ensures !focused ==> Ledger.Value(r.ledger, bucket) == Ledger.Value(s.ledger, bucket) + (now - s.lastCheck)
    ensures !focused ==> forall n :: n != bucket ==> Ledger.Value(r.ledger, n) == Ledger.Value(s.ledger, n)
    ensures Ledger.Distinct(s.ledger) ==> Ledger.Distinct(r.ledger)
    ensures r.targets == s.targets && r.tracking == s.tracking && r.startTime == s.startTime
    ensures r.focusData == s.focusData && r.distractionData == s.distractionData
  {
    var delta := now - s.lastCheck;
    var charged :=
      if focused then s.(focused := s.focused + delta)
      else s.(distracted := s.distracted + delta, ledger := Ledger.Add(s.ledger, bucket, delta));
    assert !focused ==> forall n :: n != bucket ==> Ledger.Value(charged.ledger, n) == Ledger.Value(s.ledger, n) by {
      if !focused {
        forall n | n != bucket
          ensures Ledger.Value(charged.ledger, n) == Ledger.Value(s.ledger, n)
        {
          Ledger.AddOthersUnchanged(s.ledger, bucket, delta, n);
        }
      }
    }
    charged.(lastCheck := now)
  }

  /** Whether the sample rule fires at `now`: the whole seconds elapsed
      since the start exceed the number of samples plus one. */
  predicate SampleDue(s: State, now: real)
  {
    Trunc(now - s.startTime) > |s.focusData| + 1
  }

  /** Appends one sample to both graph lists when due, never more. */
  function Record(s: State, now: real): (r: State)
    ensures SampleDue(s, now) ==> r.focusData == s.focusData + [(now - s.startTime, s.focused)]
    ensures SampleDue(s, now) ==> r.distractionData == s.distractionData + [(now - s.startTime, s.distracted)]
    ensures SampleDue(s, now) ==> |r.focusData| <= Trunc(now - s.startTime) - 1
    ensures !SampleDue(s, now) ==> r == s
    ensures |s.focusData| <= |r.focusData| <= |s.focusData| + 1
    ensures |r.focusData| - |s.focusData| == |r.distractionData| - |s.distractionData|
    ensures r.(focusData := s.focusData, distractionData := s.distractionData) == s
    ensures r.focused == s.focused && r.distracted == s.distracted && r.ledger == s.ledger
    ensures r.lastCheck == s.lastCheck && r.startTime == s.startTime
    ensures r.targets == s.targets && r.tracking == s.tracking && r.stopped == s.stopped
  {
    if SampleDue(s, now) then
      s.(focusData := s.focusData + [(now - s.startTime, s.focused)],
         distractionData := s.distractionData + [(now - s.startTime, s.distracted)])
    else s
  }

  /** The body of one `webcam_loop` iteration after a successful frame read:
      classify, charge the delta, then maybe record a sample. */
  function ReadFrame(s: State, f: Frame): (r: State)
    ensures r.lastCheck == f.now
    ensures r.focused + r.distracted == s.focused + s.distracted + (f.now - s.lastCheck)
    ensures FrameFocused(s, f) ==> r.ledger == s.ledger && r.distracted == s.distracted
    ensures !FrameFocused(s, f) ==> r.focused == s.focused
    ensures r.targets == s.targets && r.tracking == s.tracking && r.startTime == s.startTime && r.stopped == s.stopped
  {
    var seen := s.(face := f.face, forward := f.face && f.forward);
    var charged := Accumulate(seen, FrameFocused(s, f), Bucket(f.title), f.now);
    Record(charged, f.now)
  }

  /** A distracted read charges its delta to the frame's bucket and to no
      other bucket. */
  lemma ReadFrameChargesBucket(s: State, f: Frame)
    requires !FrameFocused(s, f)
    ensures Ledger.Value(ReadFrame(s, f).ledger, Bucket(f.title))
              == Ledger.Value(s.ledger, Bucket(f.title)) + (f.now - s.lastCheck)
    ensures forall n :: n != Bucket(f.title) ==> Ledger.Value(ReadFrame(s, f).ledger, n) == Ledger.Value(s.ledger, n)
  {
    var seen := s.(face := f.face, forward := f.face && f.forward);
    var charged := Accumulate(seen, false, Bucket(f.title), f.now);
    assert ReadFrame(s, f).ledger == charged.ledger;
  }

  /** Recording at the state's own clock reading appends at most one
      sample, to both lists together, and only once enough whole seconds
      have passed for the new count. */
  lemma RecordSamples(c: State, now: real)
    requires c.lastCheck == now
    ensures var r := Record(c, now);
            && |r.focusData| - |c.focusData| == |r.distractionData| - |c.distractionData|
            && |c.focusData| <= |r.focusData| <= |c.focusData| + 1
            && (|r.focusData| == |c.focusData| + 1 ==> |r.focusData| <= Trunc(r.lastCheck - r.startTime) - 1)
  {
    var r := Record(c, now);
    if SampleDue(c, now) {
      assert r.lastCheck - r.startTime == now - c.startTime;
    }
  }

  /** A read appends at most one sample, to both lists together; the time
      condition on the new sample is `RecordSamples`, since a read records
      at its own clock reading. */
  lemma ReadFrameSamples(s: State, f: Frame)
    ensures var r := ReadFrame(s, f);
            && |r.focusData| - |s.focusData| == |r.distractionData| - |s.distractionData|
            && |s.focusData| <= |r.focusData| <= |s.focusData| + 1
  {
    var seen := s.(face := f.face, forward := f.face && f.forward);
    var charged := Accumulate(seen, FrameFocused(s, f), Bucket(f.title), f.now);
    assert ReadFrame(s, f) == Record(charged, f.now);
    assert charged.focusData == s.focusData && charged.distractionData == s.distractionData;
    RecordSamples(charged, f.now);
  }

  /** One iteration of `webcam_loop`. Once `stop_event` is set the loop has
      ended and nothing happens; a failed frame read skips the iteration
      without touching the state. */
  function Tick(s: State, frame: Option<Frame>): (r: State)
    ensures s.stopped || frame.None? ==> r == s
    ensures !s.stopped && frame.Some? ==> r == ReadFrame(s, frame.value)
    ensures r.focused + r.distracted - r.lastCheck == s.focused + s.distracted - s.lastCheck
    ensures r.targets == s.targets && r.tracking == s.tracking && r.stopped == s.stopped
  {
    if s.stopped || frame.None? then s else ReadFrame(s, frame.value)
  }

  /** The graph lists grow in step, each pair of samples is taken at the
      same instant, and sample `k` is taken at least `k + 2` whole seconds
      into the session. */
  ghost predicate SamplesInv(s: State)
  {
    && |s.focusData| == |s.distractionData|
    && (forall k :: 0 <= k < |s.focusData| ==> s.focusData[k].0 == s.distractionData[k].0)
    && (forall k :: 0 <= k < |s.focusData| ==> Trunc(s.focusData[k].0) >= k + 2)
  }

  /** The invariants the loop keeps: the ledger accounts for all distracted
      time and names a bucket at most once, the samples are well formed, and
      the head is never "forward" without a face. */
  ghost predicate Inv(s: State)
  {
    && Ledger.Sum(s.ledger) == s.distracted
    && Ledger.Distinct(s.ledger)
    && SamplesInv(s)
    && (s.forward ==> s.face)
  }

  lemma RecordPreservesSamplesInv(s: State, now: real)
    requires SamplesInv(s)
    ensures SamplesInv(Record(s, now))
  {
    if SampleDue(s, now) {
      var r := Record(s, now);
      var k := |s.focusData|;
      assert r.focusData[k].0 == now - s.startTime == r.distractionData[k].0;
      assert forall j :: 0 <= j < k ==> r.focusData[j] == s.focusData[j] && r.distractionData[j] == s.distractionData[j];
    }
  }

  /** Charging a tick keeps the ledger in step with the distracted total. */
  lemma AccumulatePreservesInv(s: State, focused: bool, bucket: string, now: real)
    requires Inv(s)
    ensures Inv(Accumulate(s, focused, bucket, now))
  {
    var charged := Accumulate(s, focused, bucket, now);
    assert Ledger.Sum(charged.ledger) == charged.distracted;
    assert SamplesInv(charged);
  }

  lemma RecordPreservesInv(s: State, now: real)
    requires Inv(s)
    ensures Inv(Record(s, now))
  {
    RecordPreservesSamplesInv(s, now);
  }

  lemma TickPreservesInv(s: State, frame: Option<Frame>)
    requires Inv(s)
    ensures Inv(Tick(s, frame))
  {
    if !s.stopped && frame.Some? {
      var f := frame.value;
      assert Tick(s, frame) == ReadFrame(s, f);
      var seen := s.(face := f.face, forward := f.face && f.forward);
      var charged := Accumulate(seen, FrameFocused(s, f), Bucket(f.title), f.now);
      AccumulatePreservesInv(seen, FrameFocused(s, f), Bucket(f.title), f.now);
      RecordPreservesInv(charged, f.now);
      assert Record(charged, f.now) == Tick(s, frame);
    }
  }

  /** The loop run over a sequence of frame reads. */
  function Run(s: State, frames: seq<Option<Frame>>): State
    decreases |frames|
  {
    if |frames| == 0 then s else Run(Tick(s, frames[0]), frames[1..])
  }

  /** The clock value of the last successful read, or `since` if none. */
  function LastNow(since: real, frames: seq<Option<Frame>>): real
    decreases |frames|
  {
    if |frames| == 0 then since
    else LastNow(if frames[0].Some? then frames[0].value.now else since, frames[1..])
  }

  /** Conservation of time: over any run of a loop that has not been
      stopped, focused plus distracted time grows by exactly the clock
      distance from the first `lastCheck` to the last successful read; a
      stopped loop changes nothing. */
  lemma {:induction false} RunConservesTime(s: State, frames: seq<Option<Frame>>)
    ensures !s.stopped ==> Run(s, frames).lastCheck == LastNow(s.lastCheck, frames)
    ensures !s.stopped ==>
      Run(s, frames).focused + Run(s, frames).distracted
        == s.focused + s.distracted + (LastNow(s.lastCheck, frames) - s.lastCheck)
    ensures s.stopped ==> Run(s, frames) == s
    decreases |frames|
  {
    if |frames| > 0 {
      RunConservesTime(Tick(s, frames[0]), frames[1..]);
    }
  }

  /** The invariants hold after any run that starts from them. */
  lemma {:induction false} RunPreservesInv(s: State, frames: seq<Option<Frame>>)
    requires Inv(s)
    ensures Inv(Run(s, frames))
    decreases |frames|
  {
    if |frames| > 0 {
      TickPreservesInv(s, frames[0]);
      RunPreservesInv(Tick(s, frames[0]), frames[1..]);
    }
  }

  /** With no targets the focused counter never moves: every tick is
      distracted. */
  lemma {:induction false} NoTargetsNoFocusedTime(s: State, frames: seq<Option<Frame>>)
    requires s.targets == []
    ensures Run(s, frames).focused == s.focused
    decreases |frames|
  {
    if |frames| > 0 {
      if frames[0].Some? {
        Focus.NoTargetsNeverFocused(s.tracking, frames[0].value.face,
          frames[0].value.face && frames[0].value.forward, frames[0].value.title);
      }
      NoTargetsNoFocusedTime(Tick(s, frames[0]), frames[1..]);
    }
  }

  /** While tracking is off every tick is distracted time. The loop runs
      such a tick only as the iteration in flight when the stop handler
      takes the lock, since the next loop test sees `stop_event`. */
  lemma {:induction false} NotTrackingNoFocusedTime(s: State, frames: seq<Option<Frame>>)
    requires !s.tracking
    ensures Run(s, frames).focused == s.focused
    decreases |frames|
  {
    if |frames| > 0 {
      NotTrackingNoFocusedTime(Tick(s, frames[0]), frames[1..]);
    }
  }

  datatype StartError = NoSelection

  /** `start_tracking_button_handler`: without a selection it reports an
      error and changes nothing; otherwise it installs the selection as the
      targets and clears counters, graph lists and ledger. The handler does
      not refuse a start while already tracking. */
  function StartTracking(s: State, selection: seq<string>, now: real): (r: Result<State, StartError>)
    ensures r.Failure? <==> |selection| == 0
    ensures r.Success? ==> r.value.targets == selection && r.value.tracking && !r.value.stopped
    ensures r.Success? ==> r.value.focused == 0.0 && r.value.distracted == 0.0
    ensures r.Success? ==> r.value.focusData == [] && r.value.distractionData == [] && r.value.ledger == []
    ensures r.Success? ==> r.value.startTime == now && r.value.lastCheck == s.lastCheck
    ensures r.Success? && (s.forward ==> s.face) ==> Inv(r.value)
  {
    if |selection| == 0 then Failure(NoSelection)
    else Success(s.(targets := selection, focused := 0.0, distracted := 0.0,
                    focusData := [], distractionData := [], ledger := [],
                    startTime := now, tracking := true, stopped := false))
  }

  /** The start of a `webcam_loop` thread: it re-reads the clock into both
      `last_check` and `start_time` before the first frame. The thread calls
      `time.time()` once for each, so `start_time` may lie a moment after
      `last_check`; one reading `now` stands for both. */
  function LoopStart(s: State, now: real): (r: State)
    ensures r.lastCheck == now && r.startTime == now
    ensures r.(lastCheck := s.lastCheck, startTime := s.startTime) == s
  {
    s.(lastCheck := now, startTime := now)
  }

  /** `stop_tracking_button_handler`: turns tracking off, sets `stop_event`
      and keeps every counter readable as it was. */
  function StopTracking(s: State): (r: State)
    ensures !r.tracking && r.stopped
    ensures r.(tracking := s.tracking, stopped := s.stopped) == s
  {
    s.(tracking := false, stopped := true)
  }

  /** After a stop that lands between two iterations the loop ends: no later
      frame changes any counter, the ledger or the graph lists. */
  lemma {:induction false} StopEndsLoop(s: State, frames: seq<Option<Frame>>)
    ensures Run(StopTracking(s), frames) == StopTracking(s)
    decreases |frames|
  {
    if |frames| > 0 {
      StopEndsLoop(s, frames[1..]);
    }
  }

  /** A stop that lands while an iteration is reading its frame, after the
      `stop_event` test: that iteration still takes the lock and sees
      tracking off, so it charges its whole delta as distracted time to the
      frame's bucket; then the loop ends. The focused counter is untouched
      and the ledger still sums to the distracted time. */
  lemma StopDuringRead(s: State, f: Frame, after: seq<Option<Frame>>)
    requires Inv(s) && !s.stopped
    ensures var last := StopTracking(ReadFrame(s.(tracking := false), f));
            var r := Run(last, after);
            && r == last
            && r.focused == s.focused
            && r.distracted == s.distracted + (f.now - s.lastCheck)
            && Ledger.Sum(r.ledger) == r.distracted
  {
    var idle := s.(tracking := false);
    assert Tick(idle, Some(f)) == ReadFrame(idle, f);
    TickPreservesInv(idle, Some(f));
    StopEndsLoop(ReadFrame(idle, f), after);
  }

  /** The charge of the iteration in flight at a stop goes to that frame's
      bucket and to no other. */
  lemma StopDuringReadCharges(s: State, f: Frame)
    ensures var last := StopTracking(ReadFrame(s.(tracking := false), f));
            && Ledger.Value(last.ledger, Bucket(f.title))
                 == Ledger.Value(s.ledger, Bucket(f.title)) + (f.now - s.lastCheck)
            && forall n :: n != Bucket(f.title) ==> Ledger.Value(last.ledger, n) == Ledger.Value(s.ledger, n)
  {
    var idle := s.(tracking := false);
    ReadFrameChargesBucket(idle, f);
    assert StopTracking(ReadFrame(idle, f)).ledger == ReadFrame(idle, f).ledger;
  }

  /** A whole session: start, loop start at `t0`, then any sequence of frame
      reads. Focused plus distracted time is exactly the tracked clock span,
      and the ledger sums to the distracted time. */
  lemma SessionAccounting(s: State, selection: seq<string>, now: real, t0: real, frames: seq<Option<Frame>>)
    requires |selection| > 0
    requires s.forward ==> s.face
    ensures var r := Run(LoopStart(StartTracking(s, selection, now).value, t0), frames);
            && r.focused + r.distracted == LastNow(t0, frames) - t0
            && Ledger.Sum(r.ledger) == r.distracted
            && |r.focusData| == |r.distractionData|
  {
    var started := LoopStart(StartTracking(s, selection, now).value, t0);
    RunConservesTime(started, frames);
    RunPreservesInv(started, frames);
  }

  /** The program from launch: the globals at `boot`, one start, the loop
      thread's start at `t0`, any frame reads, a stop, and any frames the
      camera still delivers. The stop freezes the accounting: the counters
      add up to the tracked span, the ledger to the distracted time. */
  lemma FirstSession(boot: real, selection: seq<string>, now: real, t0: real,
                     frames: seq<Option<Frame>>, after: seq<Option<Frame>>)
    requires |selection| > 0
    ensures var running := Run(LoopStart(StartTracking(Initial(boot), selection, now).value, t0), frames);
            var r := Run(StopTracking(running), after);
            && r == StopTracking(running)
            && r.focused + r.distracted == LastNow(t0, frames) - t0
            && Ledger.Sum(r.ledger) == r.distracted
            && |r.focusData| == |r.distractionData|
  {
    var running := Run(LoopStart(StartTracking(Initial(boot), selection, now).value, t0), frames);
    SessionAccounting(Initial(boot), selection, now, t0, frames);
    StopEndsLoop(running, after);
  }
}

=== FILE: wrappers.dfy ===
/** Optional values and the refusal results of the handlers, shared by the
    SmartyFocus model. */
module Wrappers {

  /** A value that may be absent. */
  datatype Option<+T> = None | Some(value: T)

  /** Either a computed value or the reason the operation refused to run. */
  datatype Result<+T, +E> = Success(value: T) | Failure(error: E)
}
